=== FILE: README.md ===
# Identity gateway decision rules, modelled in Dafny

This project models the decision logic of a small identity gateway written as an
Express server (`server.js`). The gateway accepts proofs of identity from an OAuth2
directory (authorization-code flow plus a Graph `memberOf` query), from a legacy
directory bind, or as a provider-issued token, and hands out its own session token
whose claims carry a normalised `scope` and `rights` list. `/whoami` projects a
session token back onto an id, a role and the rights.

Every external call is a parameter of the model: the random byte source, the code
exchange, the Graph query, the directory bind and lookup, the key-discovery request,
the per-key signature check and the session-token verification. Each is an oracle
that returns either a value or an error. The clock reading `nowMs` is a parameter as
well. Tokens are abstract claim records (`SessionToken.Jwt`): the compact encoding
and the signatures are not modelled.

Modules:

- `Wrappers`: `Option` and `Result`.
- `Text`: the JavaScript primitives the rules rely on: `startsWith`, `replace` with a string pattern (first occurrence only), global single-character replace, `Array.prototype.indexOf`.
- `ClaimsMapping`: claims translation, i.e. prefix filtering and stripping, rights with admin dominating user.
- `SessionToken`: the issuer constant, the four-hour lifetime, and claim construction.
- `Http`, `Settings`: responses, cookies, the bearer-token extraction and the start-up configuration.
- `CorrelationState`: base64 encoding (sections 4 and 5 of RFC 4648), the state-token rewrite and the authorize redirect.
- `LoginFlows`: the `/token` callback with its state check (section 10.12 of RFC 6749), and `/login/ad`.
- `ProviderToken`: `verifyToken` as written, the intended key loop, and `/login/token`.
- `Whoami`: token selection, role derivation, the rights echo and end-to-end lemmas.

Where the code departs from what it evidently intends, the model follows the code:

- `/whoami` never answers when verification fails (`Http.Response.NoResponse`). It does not answer 401.
- As written, `verifyToken` is decided by the first key tried (see Findings).
- An empty key set leaves the promise pending.

## Model

| member | source | states |
|---|---|---|
| Text.Find | server.js:114 | -1 exactly when the pattern starts nowhere in the string; otherwise the pattern sits at the returned position and starts at no earlier one |
| Text.ReplaceFirst | server.js:114 | only the first occurrence of the pattern is replaced, everything before and after it is kept; without an occurrence the string is unchanged |
| Text.ReplaceAll | server.js:40 | same length; every occurrence of the character is replaced and every other character is kept |
| Text.IndexOf | server.js:120 | -1 exactly when the element is absent; otherwise the position of its first occurrence |
| Http.BearerToken | server.js:286 | the first `Bearer ` of the header is removed wherever it occurs and everything around it is kept; a header starting with `Bearer ` yields the rest of the header; a header without `Bearer ` is passed on unchanged |
| ClaimsMapping.StripRemovesPrefix | server.js:113-114 | for a `testauth_` name, replacing the prefix removes exactly its first nine characters |
| ClaimsMapping.Membership | server.js:111-116 | scope is no longer than the group list; every entry is a prefixed name minus its prefix; every prefixed name contributes its stripped form |
| ClaimsMapping.MembershipAppend | server.js:111-116 | the scope of a concatenation is the concatenation of scopes, so the original order and any duplicates are kept |
| ClaimsMapping.MembershipSingle | server.js:113-115 | a prefixed name contributes its stripped form; any other name is dropped |
| ClaimsMapping.Rights | server.js:118-126 | `admins` gives the three admin rights wherever `users` is; otherwise `users` gives `can view`; otherwise no rights; total |
| ClaimsMapping.RightsIgnoreOrder | server.js:119-126 | rights depend only on which logical names occur, not on their order or repeats |
| ClaimsMapping.Translate | server.js:111-126 | the scope is the membership of the names and the rights are the rights of that scope; they are the admin rights exactly when `testauth_admins` is among the names; otherwise `can view` exactly when `users` is in scope, and no rights when it is not |
| ClaimsMapping.GraphAndAdAgree | server.js:202-217 | the Graph path and the directory path compute the same scope and rights for the same list of names |
| ClaimsMapping.AdminsInScopeIffAdminGroup | server.js:111-120 | `admins` is in scope exactly when the group list contains `testauth_admins` |
| ClaimsMapping.AdminRightsIffAdminGroup | server.js:111-123 | admin rights are minted exactly when the group list contains `testauth_admins` |
| CorrelationState.Encode | server.js:40 | base64 text is four characters per started group of three bytes; distinct byte strings give distinct text (see `EncodeInjective`) |
| CorrelationState.EncodeInjective | server.js:36-40 | the base64 text determines the bytes it encodes, so the state token depends on every random byte drawn |
| CorrelationState.QuadInjective | server.js:40 | one four-character group, padding included, determines the up to three bytes it encodes |
| CorrelationState.EncodeVectors | server.js:40 | the encoding gives the RFC 4648 section 10 test vectors for `f`, `fo`, `foo` and `foobar` |
| CorrelationState.UrlRewrite | server.js:40 | the rewrite keeps the length and maps `/` to `_` and `+` to `-` character by character |
| CorrelationState.StateToken | server.js:36-40 | the state token has the length of the standard base64 text of the bytes |
| CorrelationState.StateTokenIsBase64Url | server.js:40 | the rewritten text equals the URL-safe base64 encoding of the same bytes (section 5 of RFC 4648) |
| CorrelationState.StateTokenRewrite | server.js:40 | no `/` or `+` remains; `/` became `_`, `+` became `-`, and every other character is unchanged |
| CorrelationState.NoPaddingOnWholeGroups | server.js:36-40 | a byte count divisible by three gives text without `=` |
| CorrelationState.UrlSafeAlphabet | server.js:40 | base64url text holds only unreserved URL characters (section 2.3 of RFC 3986) and `=` |
| CorrelationState.StateTokenShape | server.js:36-40 | 48 random bytes give a 64-character token without `=`, made only of unreserved URL characters |
| CorrelationState.AuthorizeUrl | server.js:42 | the redirect starts with the authority followed by `AuthorizePath` (`/oauth2/authorize?response_type=code&client_id=`) and ends with the route's suffix |
| CorrelationState.Consent | server.js:35-46 | a failed random source answers 500 with the fixed message and nothing else does; otherwise the `authstate` cookie holds the base64url text of the bytes and the redirect carries that same state |
| CorrelationState.AdminConsent | server.js:49-51 | `/consent` answers 500 on a failed random source; otherwise it sets the base64url state cookie and redirects to the authorize URL ending in `&prompt=admin_consent` |
| CorrelationState.LoginAad | server.js:54-56 | `/login/aad` answers 500 on a failed random source; otherwise it sets the base64url state cookie and redirects to the authorize URL with no suffix |
| CorrelationState.AdminConsentOnlyAddsPrompt | server.js:49-56 | `/consent` and `/login/aad` set the same cookie; their URLs differ only by the trailing `&prompt=admin_consent` |
| CorrelationState.RedirectCarriesCookieState | server.js:41-42 | with an escaper that leaves unreserved text alone, the redirect's `state` parameter is the cookie's value verbatim |
| SessionToken.Issue | server.js:129-139 | the token is freshly issued (issuer `http://testauth.plasne.com`, expiration `now + 14400000` ms, the configured secret) and carries exactly the given subject, scope and rights |
| LoginFlows.GroupMembershipForUser | server.js:93-99 | the Graph query succeeds exactly without a transport error and with status 200, yielding the groups; otherwise the body text is the error |
| LoginFlows.JwtFromToken | server.js:104-146 | a token is minted exactly when the Graph query succeeds; it carries the user id, the translated scope and rights, and is freshly issued |
| LoginFlows.TokenCallback | server.js:149-179 | 400 exactly when the `authstate` cookie differs from the `state` parameter; a failed exchange answers 401 `Unauthorized (access token): ` plus its error; a failed Graph query answers 401 `Unauthorized (jwt): ` plus the body text; a redirect to `/client.html` with one session cookie exactly when state matches and both calls succeed; every cookie token is fresh and lives 14400000 ms |
| LoginFlows.MismatchNeverExchanges | server.js:152-157 | on a state mismatch the answer is 400 and independent of the exchanger and the Graph query |
| LoginFlows.StateGateOnAbsence | server.js:152 | both values absent passes the strict-equality check; exactly one absent fails it |
| LoginFlows.CallbackCookieClaims | server.js:157-167 | the redirect's cookie token carries the exchanged user id and the translation of the Graph groups, with `maxAge` 14400000 |
| LoginFlows.AdminLoginScenario | server.js:149-167 | matching state, user `U` and group `testauth_admins` lead to a redirect whose cookie has `sub = U`, `scope = ["admins"]` and the three admin rights |
| LoginFlows.LoginAd | server.js:182-243 | a missing or malformed credentials cookie throws; 200 exactly when the bind succeeds without error and the lookup yields groups; 401 exactly when the bind errs or does not authenticate; after a successful bind a lookup error answers 500 with that error, and a lookup with neither error nor groups gets no answer; every cookie token is fresh |
| LoginFlows.AdCookieClaims | server.js:200-232 | the directory login's cookie token names the user and carries the translation of the `cn` names |
| LoginFlows.PathsMintSameToken | server.js:202-225 | for the same subject and names, the Graph callback and the directory login set identical session cookies |
| ProviderToken.KeyOutcome | server.js:261-270 | a key settles with acceptance exactly when its signature check passes and `aud` is `http://testauth.plasne.com/`; a valid signature with another audience rejects with the audience message |
| ProviderToken.FirstSettlement | server.js:257-272 | a settle-once deferred stays pending exactly when nothing tried to settle it; otherwise the first attempted settlement is its outcome |
| ProviderToken.VerifyTokenAsWritten | server.js:245-280 | failed key discovery rejects; an empty key set leaves the promise pending; otherwise the first key's outcome is the result |
| ProviderToken.RunKeyLoop | server.js:257-272 | running the key loop against a settle-once deferred yields exactly the as-written result |
| ProviderToken.FirstAccepted | server.js:256-272 | the intended loop accepts exactly when some key accepts, returning the first acceptance; when it rejects, an audience mismatch of any key is reported as such; otherwise the last key's reason; no keys gives the no-key reason |
| ProviderToken.VerifyToken | server.js:245-280 | always settles; a key-fetch failure rejects with the fetch error; acceptance exactly when keys were fetched and some key accepts; an accepted token's audience is the gateway's; a rejection after some valid signature carries the audience message; when every signature check fails, the last key's signature error is reported; an empty key set rejects |
| ProviderToken.AcceptsAnySigningKey | server.js:256-272 | a token that any one key of the set verifies for the right audience is accepted |
| ProviderToken.WrongAudienceRejected | server.js:265-268 | a token whose valid signatures all carry another audience is never accepted, by either verifier |
| ProviderToken.AsWrittenAgreesWithIntended | server.js:257-272 | both verifiers agree on a key-fetch failure, on a single key, and when the first key accepts |
| ProviderToken.AsWrittenRejectsSecondKeyToken | server.js:257-272 | as written, a token signed by the second of two keys is rejected; the intended verifier accepts it |
| ProviderToken.IntendedReportsAudienceMismatch | server.js:265-268 | a token the first key verifies for another audience, with the second key failing the signature, is rejected with the audience message by the intended verifier |
| ProviderToken.AsWrittenHangsOnEmptyKeySet | server.js:257 | as written, an empty key set never settles; the intended verifier rejects |
| ProviderToken.LoginToken | server.js:283-305 | a missing header throws; a session token is returned exactly when verification accepts; it holds only issuer, `sub = upn` and expiration `now + 14400000`; a rejection answers 401 with its reason; a pending verification gets no answer |
| ProviderToken.KeyFetchFailureRejects | server.js:274-276 | a failed key fetch answers 401 with the fetch error, with either verifier |
| ProviderToken.AcceptedTokenIsReMinted | server.js:287-299 | with the intended verifier, a token any key accepts is re-minted with issuer, no scope, no rights and the four-hour expiration |
| Whoami.SelectToken | server.js:309-311 | a non-empty header wins, minus its first `Bearer `; otherwise a non-empty cookie; an empty result counts as no token |
| Whoami.RoleOf | server.js:317-321 | admin exactly when scope holds `admins`; user exactly when it holds `users` but not `admins`; none otherwise, including when scope is absent |
| Whoami.EchoRights | server.js:325 | `"none"` exactly when rights are absent; a present list is echoed, the empty list too |
| Whoami.Whoami | server.js:308-332 | 401 exactly when no token is selected; no response exactly when verification fails; an identity answer exactly when the selected token verifies, holding the id, the role of the scope and the echoed rights |
| Whoami.HeaderWinsOverCookie | server.js:310-311 | `Bearer t` in the header selects `t` whatever the cookie holds |
| Whoami.BareBearerIsUnauthorized | server.js:311-312 | a header of exactly `Bearer ` yields 401 even when a cookie is present |
| Whoami.RoleMatchesRights | server.js:317-321 | for any translated scope, the reported role is admin, user or none exactly when the minted rights are the admin list, `can view` or empty |
| Whoami.WhoamiAfterCallback | server.js:317-325 | `/whoami` on a `/token` cookie reports the user id, the role of the Graph groups and exactly the minted rights |
| Whoami.WhoamiAfterLoginToken | server.js:291-294 | `/whoami` on a token re-minted at `/login/token` reports the `upn`, role none and rights `"none"` |

## Findings

| source | as written | input that shows it | evidently intended | confidence | as-written member | corrected member |
|---|---|---|---|---|---|---|
| server.js:257-272 | every key's verification callback settles the same deferred, so the first key tried decides; later keys are ignored | two published keys, token signed by the second: the first key's failure rejects it | accept when any key verifies the token for the gateway's audience; reject only after every key failed | not executed | ProviderToken.AsWrittenRejectsSecondKeyToken | ProviderToken.AcceptsAnySigningKey |

`ProviderToken.VerifyTokenAsWritten` and `ProviderToken.RunKeyLoop` model the loop
as written. `ProviderToken.VerifyToken` and `ProviderToken.FirstAccepted` model the
intended loop. The `/login/token` handler `ProviderToken.LoginToken` takes the
verifier as a parameter. The end-to-end lemmas use the intended verifier.

## Left out

- Express routing, static files, `app.listen`, logging and `config.get`: configuration is the explicit `Settings.Config` value, or a parameter.
- The adal-node code exchange, the Graph request, the directory bind and lookup, and the key-discovery HTTP request: each is an oracle parameter returning a value or an error.
- The njwt signing and verification, RS256, and the modulus/exponent-to-PEM conversion: tokens are claim records, and signature checks are oracles. `aadutils.js` is not part of this model.
- Expiry enforcement and njwt's default claims (`jti`, `iat`, seconds-based `exp`): they belong to the library. `expiresAtMs` is the millisecond value the source passes to `setExpiration`.
- `crypto.randomBytes` and `new Date()`: the bytes and `nowMs` are inputs.
- Promise chaining and callback asynchrony: steps are sequenced directly. Only the settle-once rule of the key loop is kept.
- `LoginFlows.LoginAd`: where the source sends two responses in a row, the first is modelled. The same holds for the 401 sent after an error when `auth` is false.
- `LoginFlows.LoginAd`: the `credentials` cookie is taken already parsed. A missing or malformed cookie, on which `JSON.parse` throws, is `None`.
- `ProviderToken.KeyOutcome`: `aud` is compared as a string. The JavaScript loose equality that would also accept a one-element array audience is not modelled.
- `Whoami.RoleOf`: `scope` is a list of names. The source's `indexOf` on a string-valued `scope` claim, which would match substrings, is not modelled.
- The session-token subject is always a string. An `upn` or `userId` that is undefined is not modelled.
- Cookie-parser's `j:` JSON cookies, and query parameters given more than once (which Express turns into arrays), are not modelled: cookies and query values are optional strings.
- java/src/Login.java, the servlet variant of the consent redirect: its only decision, a reference comparison of strings, has no meaningful value model.

=== FILE: claims_mapping.dfy ===
/** Claims translation: raw directory group names become the logical `scope`
    list and the ordered `rights` list carried in a session token. */
module ClaimsMapping {
  import opened Text

  /** Only groups whose name carries this prefix are significant. */
  const Prefix: string := "testauth_"

  const AdminRights: seq<string> := ["can admin", "can edit", "can view"]
  const UserRights: seq<string> := ["can view"]

  /** A group as returned by the Graph `memberOf` query. */
  datatype GraphGroup = GraphGroup(displayName: string)

  /** A group as returned by the directory lookup after a bind. */
  datatype AdGroup = AdGroup(cn: string)

  /** The names the Graph path reads: each group's `displayName`. */
  function GraphNames(groups: seq<GraphGroup>): (names: seq<string>)
    ensures |names| == |groups|
    ensures forall i :: 0 <= i < |groups| ==> names[i] == groups[i].displayName
  {
    seq(|groups|, i requires 0 <= i < |groups| => groups[i].displayName)
  }

  /** The names the directory-bind path reads: each group's `cn`. */
  function AdNames(groups: seq<AdGroup>): (names: seq<string>)
    ensures |names| == |groups|
    ensures forall i :: 0 <= i < |groups| ==> names[i] == groups[i].cn
  {
    seq(|groups|, i requires 0 <= i < |groups| => groups[i].cn)
  }

  /** A significant name, with its prefix removed the way the source does it
      (replacing the first occurrence of the prefix by the empty string). */
  lemma StripRemovesPrefix(name: string)
    requires StartsWith(name, Prefix)
    ensures ReplaceFirst(name, Prefix, "") == name[|Prefix|..]
    ensures |ReplaceFirst(name, Prefix, "")| == |name| - |Prefix|
  {
  }

  /** `x` is the stripped form of some significant name in `names`. */
  predicate StrippedFrom(x: string, names: seq<string>) {
    exists i :: 0 <= i < |names| && StartsWith(names[i], Prefix) && x == names[i][|Prefix|..]
  }

  /** The `scope` list: keep the prefixed names, in order and with repeats,
      each with its prefix removed. */
  function Membership(names: seq<string>): (scope: seq<string>)
    ensures |scope| <= |names|
    ensures forall j :: 0 <= j < |scope| ==> StrippedFrom(scope[j], names)
    ensures forall i :: 0 <= i < |names| && StartsWith(names[i], Prefix) ==> names[i][|Prefix|..] in scope
    decreases |names|
  {
    if |names| == 0 then []
    else
      var rest := Membership(names[1..]);
      if StartsWith(names[0], Prefix) then
        StripRemovesPrefix(names[0]);
        [ReplaceFirst(names[0], Prefix, "")] + rest
      else rest
  }

  /** Membership keeps the original order: it maps concatenations to concatenations. */
  lemma {:induction false} MembershipAppend(a: seq<string>, b: seq<string>)
    ensures Membership(a + b) == Membership(a) + Membership(b)
    decreases |a|
  {
    if |a| == 0 {
      assert a + b == b;
    } else {
      assert (a + b)[1..] == a[1..] + b;
      MembershipAppend(a[1..], b);
    }
  }

  /** A single name contributes its stripped form when prefixed and nothing otherwise. */
  lemma MembershipSingle(name: string)
    ensures StartsWith(name, Prefix) ==> Membership([name]) == [name[|Prefix|..]]
    ensures !StartsWith(name, Prefix) ==> Membership([name]) == []
  {
  }

  /** The `rights` list: admin membership dominates user membership. */
  function Rights(scope: seq<string>): (rights: seq<string>)
    ensures "admins" in scope ==> rights == AdminRights
    ensures "admins" !in scope && "users" in scope ==> rights == UserRights
    ensures "admins" !in scope && "users" !in scope ==> rights == []
  {
    if IndexOf(scope, "admins") > -1 then AdminRights
    else if IndexOf(scope, "users") > -1 then UserRights
    else []
  }

  /** Rights depend only on which logical names occur, not on order or repeats. */
  lemma RightsIgnoreOrder(s: seq<string>, t: seq<string>)
    requires forall x :: x in s <==> x in t
    ensures Rights(s) == Rights(t)
  {
  }

  /** The translated claim set of one login. */
  datatype Translation = Translation(scope: seq<string>, rights: seq<string>)

  function Translate(names: seq<string>): (t: Translation)
    ensures t.scope == Membership(names)
    ensures t.rights == AdminRights <==> "testauth_admins" in names
    ensures "testauth_admins" !in names ==> (t.rights == UserRights <==> "users" in t.scope)
    ensures "testauth_admins" !in names && "users" !in t.scope ==> t.rights == []
    ensures t.rights == Rights(t.scope)
  {
    var scope := Membership(names);
    AdminsInScopeIffAdminGroup(names);
    Translation(scope, Rights(scope))
  }

  /** The Graph path (reading `displayName`) and the directory path (reading `cn`)
      translate the same list of names identically. The two inline blocks of the
      source are identical apart from the field they read, which is why both paths
      share `Translate` here; this lemma only records that the projections agree. */
  lemma GraphAndAdAgree(g: seq<GraphGroup>, a: seq<AdGroup>)
    requires |g| == |a|
    requires forall i :: 0 <= i < |g| ==> g[i].displayName == a[i].cn
    ensures Translate(GraphNames(g)) == Translate(AdNames(a))
  {
    assert GraphNames(g) == AdNames(a);
  }

  /** Rights are admin rights exactly when some significant group is `testauth_admins`. */
  lemma AdminRightsIffAdminGroup(names: seq<string>)
    ensures Rights(Membership(names)) == AdminRights <==> "testauth_admins" in names
  {
    AdminsInScopeIffAdminGroup(names);
  }

  lemma {:induction false} AdminsInScopeIffAdminGroup(names: seq<string>)
    ensures "admins" in Membership(names) <==> "testauth_admins" in names
    decreases |names|
  {
    if |names| > 0 {
      var n, rest := names[0], names[1..];
      AdminsInScopeIffAdminGroup(rest);
      assert names == [n] + rest;
      MembershipAppend([n], rest);
      MembershipSingle(n);
      AdminName(n);
    }
  }

  /** `testauth_admins` is the only name whose stripped form is `admins`. */
  lemma AdminName(n: string)
    ensures StartsWith(n, Prefix) ==> (n[|Prefix|..] == "admins" <==> n == "testauth_admins")
    ensures !StartsWith(n, Prefix) ==> n != "testauth_admins"
  {
  }
}

=== FILE: correlation_state.dfy ===
/** The correlation state of the authorization-code flow: how the random state
    token is encoded and how the authorize redirect and the `authstate` cookie
    carry it. The callback's check of it (the CSRF defence of section 10.12 of
    RFC 6749) is `LoginFlows.TokenCallback`. */
module CorrelationState {
  import opened Wrappers
  import opened Text
  import opened Http
  import opened Settings

  type byte = x: int | 0 <= x < 256

  /** Number of random bytes drawn per login attempt. */
  const StateBytes: nat := 48

  /** The two base64 alphabets of RFC 4648: section 4 (standard) and section 5 (URL and file name safe). */
  datatype Alphabet = Standard | UrlSafe

  /** The character for a 6-bit value. */
  function Digit(a: Alphabet, v: int): (c: char)
    requires 0 <= v < 64
    ensures c != '='
  {
    if v < 26 then ('A' as int + v) as char
    else if v < 52 then ('a' as int + (v - 26)) as char
    else if v < 62 then ('0' as int + (v - 52)) as char
    else if v == 62 then (if a == Standard then '+' else '-')
    else (if a == Standard then '/' else '_')
  }

  /** Base64 encoding with `=` padding (section 4 and section 5 of RFC 4648). */
  function Encode(a: Alphabet, b: seq<byte>): (s: string)
    ensures |s| == 4 * ((|b| + 2) / 3)
    decreases |b|
  {
    if |b| == 0 then []
    else if |b| == 1 then
      [Digit(a, b[0] / 4), Digit(a, (b[0] % 4) * 16), '=', '=']
    else if |b| == 2 then
      [Digit(a, b[0] / 4), Digit(a, (b[0] % 4) * 16 + b[1] / 16), Digit(a, (b[1] % 16) * 4), '=']
    else
      [Digit(a, b[0] / 4), Digit(a, (b[0] % 4) * 16 + b[1] / 16),
       Digit(a, (b[1] % 16) * 4 + b[2] / 64), Digit(a, b[2] % 64)]
      + Encode(a, b[3..])
  }

  /** The source's rewrite of standard base64 text: every `/` becomes `_`, then every `+` becomes `-`. */
  function UrlRewrite(s: string): (r: string)
    ensures |r| == |s|
    ensures forall i :: 0 <= i < |s| ==> r[i] == UrlChar(s[i])
  {
    ReplaceAll(ReplaceAll(s, '/', '_'), '+', '-')
  }

  /** The per-character effect of the rewrite. */
  function UrlChar(c: char): char {
    if c == '/' then '_' else if c == '+' then '-' else c
  }

  /** The state token for the drawn random bytes. */
  function StateToken(bytes: seq<byte>): (token: string)
    ensures |token| == 4 * ((|bytes| + 2) / 3)
  {
    UrlRewrite(Encode(Standard, bytes))
  }

  lemma UrlRewriteAppend(s: string, t: string)
    ensures UrlRewrite(s + t) == UrlRewrite(s) + UrlRewrite(t)
  {
  }

  /** The four characters encoding one group (or its padded remainder). */
  function Quad(a: Alphabet, b: seq<byte>): (q: string)
    requires 1 <= |b|
    ensures |q| == 4
  {
    var b1 := if |b| > 1 then b[1] else 0;
    var b2 := if |b| > 2 then b[2] else 0;
    [Digit(a, b[0] / 4), Digit(a, (b[0] % 4) * 16 + b1 / 16),
     if |b| > 1 then Digit(a, (b1 % 16) * 4 + b2 / 64) else '=',
     if |b| > 2 then Digit(a, b2 % 64) else '=']
  }

  lemma QuadRewrite(b: seq<byte>)
    requires 1 <= |b|
    ensures UrlRewrite(Quad(Standard, b)) == Quad(UrlSafe, b)
  {
  }

  /** Encoding is the concatenation of the groups' quads. */
  lemma EncodeQuad(a: Alphabet, b: seq<byte>)
    requires 1 <= |b|
    ensures |b| <= 3 ==> Encode(a, b) == Quad(a, b)
    ensures 3 < |b| ==> Encode(a, b) == Quad(a, b) + Encode(a, b[3..])
  {
  }

  /** Distinct 6-bit values have distinct characters in either alphabet. */
  lemma DigitInjective(a: Alphabet, v: int, w: int)
    requires 0 <= v < 64 && 0 <= w < 64
    requires Digit(a, v) == Digit(a, w)
    ensures v == w
  {
  }

  /** A number is determined by its quotient and remainder by one of the group widths. */
  lemma SplitInjective(x: int, y: int, x': int, y': int, k: int)
    requires k == 4 || k == 16 || k == 64
    requires 0 <= y < k && 0 <= y' < k
    requires x * k + y == x' * k + y'
    ensures x == x' && y == y'
  {
    if k == 4 {
      assert x * 4 + y == x' * 4 + y';
    } else if k == 16 {
      assert x * 16 + y == x' * 16 + y';
    } else {
      assert x * 64 + y == x' * 64 + y';
    }
  }

  /** The bytes a quad encodes, as many as three. */
  function GroupOf(b: seq<byte>): (g: seq<byte>)
    ensures |g| == if |b| < 3 then |b| else 3
  {
    if |b| < 3 then b else b[..3]
  }

  /** One quad determines the (up to three) bytes it encodes, padding included. */
  lemma QuadInjective(a: Alphabet, b: seq<byte>, c: seq<byte>)
    requires 1 <= |b| && 1 <= |c|
    requires Quad(a, b) == Quad(a, c)
    ensures GroupOf(b) == GroupOf(c)
  {
    var q := Quad(a, b);
    assert |b| == 1 <==> q[2] == '=';
    assert |c| == 1 <==> q[2] == '=';
    assert |b| <= 2 <==> q[3] == '=';
    assert |c| <= 2 <==> q[3] == '=';
    var b1 := if |b| > 1 then b[1] else 0;
    var b2 := if |b| > 2 then b[2] else 0;
    var c1 := if |c| > 1 then c[1] else 0;
    var c2 := if |c| > 2 then c[2] else 0;
    DigitInjective(a, b[0] / 4, c[0] / 4);
    DigitInjective(a, (b[0] % 4) * 16 + b1 / 16, (c[0] % 4) * 16 + c1 / 16);
    SplitInjective(b[0] % 4, b1 / 16, c[0] % 4, c1 / 16, 16);
    SplitInjective(b[0] / 4, b[0] % 4, c[0] / 4, c[0] % 4, 4);
    if |b| > 1 {
      DigitInjective(a, (b1 % 16) * 4 + b2 / 64, (c1 % 16) * 4 + c2 / 64);
      SplitInjective(b1 % 16, b2 / 64, c1 % 16, c2 / 64, 4);
      SplitInjective(b1 / 16, b1 % 16, c1 / 16, c1 % 16, 16);
    }
    if |b| > 2 {
      DigitInjective(a, b2 % 64, c2 % 64);
      SplitInjective(b2 / 64, b2 % 64, c2 / 64, c2 % 64, 64);
    }
  }

  /** Encoding loses nothing: distinct byte strings give distinct text, so the
      token carries all of the drawn randomness. */
  lemma {:induction false} EncodeInjective(a: Alphabet, b: seq<byte>, c: seq<byte>)
    requires Encode(a, b) == Encode(a, c)
    ensures b == c
    decreases |b|
  {
    if |b| != 0 && |c| != 0 {
      EncodeQuad(a, b);
      EncodeQuad(a, c);
      var e := Encode(a, b);
      assert Quad(a, b) == e[..4] == Quad(a, c);
      QuadInjective(a, b, c);
      if 3 < |b| {
        assert 3 < |c|;
        assert Encode(a, b[3..]) == e[4..] == Encode(a, c[3..]);
        EncodeInjective(a, b[3..], c[3..]);
        assert b == b[..3] + b[3..];
        assert c == c[..3] + c[3..];
      }
    }
  }

  /** The test vectors of section 10 of RFC 4648 for "f", "fo", "foo" and "foobar". */
  lemma EncodeVectors()
    ensures Encode(Standard, [102]) == "Zg=="
    ensures Encode(Standard, [102, 111]) == "Zm8="
    ensures Encode(Standard, [102, 111, 111]) == "Zm9v"
    ensures Encode(Standard, [102, 111, 111, 98, 97, 114]) == "Zm9vYmFy"
  {
  }

  /** The rewrite turns the standard encoding into the URL-safe encoding of
      section 5 of RFC 4648: the state token is base64url of the random bytes. */
  lemma {:induction false} StateTokenIsBase64Url(b: seq<byte>)
    ensures StateToken(b) == Encode(UrlSafe, b)
    decreases |b|
  {
    if |b| == 0 {
    } else {
      EncodeQuad(Standard, b);
      EncodeQuad(UrlSafe, b);
      QuadRewrite(b);
      if 3 < |b| {
        StateTokenIsBase64Url(b[3..]);
        UrlRewriteAppend(Quad(Standard, b), Encode(Standard, b[3..]));
      }
    }
  }

  /** After the rewrite no `/` or `+` is left; every other character is kept. */
  lemma StateTokenRewrite(b: seq<byte>)
    ensures |StateToken(b)| == |Encode(Standard, b)|
    ensures forall i :: 0 <= i < |StateToken(b)| ==> StateToken(b)[i] != '/' && StateToken(b)[i] != '+'
    ensures forall i :: 0 <= i < |StateToken(b)| ==>
      StateToken(b)[i] == UrlChar(Encode(Standard, b)[i])
  {
  }

  /** Padding appears only when the byte count is not a multiple of three. */
  lemma {:induction false} NoPaddingOnWholeGroups(a: Alphabet, b: seq<byte>)
    requires |b| % 3 == 0
    ensures '=' !in Encode(a, b)
    decreases |b|
  {
    if |b| > 0 {
      NoPaddingOnWholeGroups(a, b[3..]);
    }
  }

  /** The unreserved characters of section 2.3 of RFC 3986: they never need percent-encoding. */
  predicate Unreserved(c: char) {
    ('A' <= c <= 'Z') || ('a' <= c <= 'z') || ('0' <= c <= '9') || c == '-' || c == '.' || c == '_' || c == '~'
  }

  /** Forty-eight random bytes give a 64-character token made only of unreserved characters. */
  lemma StateTokenShape(b: seq<byte>)
    requires |b| == StateBytes
    ensures |StateToken(b)| == 64
    ensures '=' !in StateToken(b)
    ensures forall i :: 0 <= i < |StateToken(b)| ==> Unreserved(StateToken(b)[i])
  {
    StateTokenIsBase64Url(b);
    NoPaddingOnWholeGroups(UrlSafe, b);
    UrlSafeAlphabet(b);
  }

  /** Every character of base64url text is unreserved or `=`. */
  lemma {:induction false} UrlSafeAlphabet(b: seq<byte>)
    ensures forall i :: 0 <= i < |Encode(UrlSafe, b)| ==>
      Unreserved(Encode(UrlSafe, b)[i]) || Encode(UrlSafe, b)[i] == '='
    decreases |b|
  {
    if |b| >= 3 {
      UrlSafeAlphabet(b[3..]);
    }
  }

  /** The 500 text sent when the random source fails; no weaker state is substituted. */
  const RandomFailureMessage: string := "Server Error: a crypto token couldn't be created to secure the session."

  /** The extra query parameter of the `/consent` route. */
  const AdminConsentSuffix: string := "&prompt=admin_consent"

  /** The provider's authorize endpoint with the fixed leading query parameters. */
  const AuthorizePath: string := "/oauth2/authorize?response_type=code&client_id="

  /** The authorize URL up to the state parameter; `escape` is the query-string escaper. */
  function AuthorizeHead(cfg: Config, escape: string -> string): string {
    cfg.authority + AuthorizePath + escape(cfg.clientId)
    + "&redirect_uri=" + escape(cfg.redirectUri)
  }

  /** The provider's authorize URL for `token`, followed by the route's suffix `add`. */
  function AuthorizeUrl(cfg: Config, escape: string -> string, token: string, add: string): (url: string)
    ensures StartsWith(url, cfg.authority + AuthorizePath)
    ensures |add| <= |url| && url[|url| - |add|..] == add
  {
    var head := cfg.authority + AuthorizePath;
    var url := AuthorizeHead(cfg, escape) + "&state=" + escape(token) + "&resource=" + escape(cfg.resource) + add;
    assert url[..|head|] == head;
    url
  }

  /** The shared body of `/consent` and `/login/aad`: draw the random bytes, set the
      `authstate` cookie and redirect to the provider with the same state. */
  function Consent(random: Result<seq<byte>, string>, cfg: Config, escape: string -> string, add: string): (r: Response)
    ensures random.Failure? <==> r == Send(500, RandomFailureMessage, [])
    ensures random.Success? ==>
      && r.Redirect?
      && r.cookies == [AuthState(Encode(UrlSafe, random.value))]
      && r.location == AuthorizeUrl(cfg, escape, Encode(UrlSafe, random.value), add)
  {
    match random
    case Failure(_) => Send(500, RandomFailureMessage, [])
    case Success(buf) =>
      var token := StateToken(buf);
      StateTokenIsBase64Url(buf);
      Redirect(AuthorizeUrl(cfg, escape, token, add), [AuthState(token)])
  }

  /** `GET /consent` */
  function AdminConsent(random: Result<seq<byte>, string>, cfg: Config, escape: string -> string): (r: Response)
    ensures random.Failure? ==> r == Send(500, RandomFailureMessage, [])
    ensures random.Success? ==>
      && r.Redirect? && r.cookies == [AuthState(Encode(UrlSafe, random.value))]
      && r.location == AuthorizeUrl(cfg, escape, Encode(UrlSafe, random.value), "&prompt=admin_consent")
  {
    Consent(random, cfg, escape, AdminConsentSuffix)
  }

  /** `GET /login/aad` */
  function LoginAad(random: Result<seq<byte>, string>, cfg: Config, escape: string -> string): (r: Response)
    ensures random.Failure? ==> r == Send(500, RandomFailureMessage, [])
    ensures random.Success? ==>
      && r.Redirect? && r.cookies == [AuthState(Encode(UrlSafe, random.value))]
      && r.location == AuthorizeUrl(cfg, escape, Encode(UrlSafe, random.value), "")
  {
    Consent(random, cfg, escape, "")
  }

  /** The two routes differ only in the admin-consent flag appended to the URL. */
  lemma AdminConsentOnlyAddsPrompt(random: Result<seq<byte>, string>, cfg: Config, escape: string -> string)
    ensures random.Success? ==>
      && AdminConsent(random, cfg, escape).cookies == LoginAad(random, cfg, escape).cookies
      && AdminConsent(random, cfg, escape).location == LoginAad(random, cfg, escape).location + AdminConsentSuffix
    ensures random.Failure? ==> AdminConsent(random, cfg, escape) == LoginAad(random, cfg, escape)
  {
  }

  /** With an escaper that leaves unreserved text alone, the redirect carries the
      cookie's state verbatim in its `state` parameter. */
  lemma RedirectCarriesCookieState(random: Result<seq<byte>, string>, cfg: Config, escape: string -> string, add: string)
    requires random.Success? && |random.value| == StateBytes
    requires forall s :: (forall i :: 0 <= i < |s| ==> Unreserved(s[i])) ==> escape(s) == s
    ensures var r := Consent(random, cfg, escape, add);
      && |r.cookies| == 1 && r.cookies[0].AuthState?
      && r.location == AuthorizeHead(cfg, escape) + "&state=" + r.cookies[0].state
                       + "&resource=" + escape(cfg.resource) + add
  {
    StateTokenShape(random.value);
    StateTokenIsBase64Url(random.value);
  }
}

=== FILE: http.dfy ===
/** What a handler sends back to the browser or API caller. */
module Http {
  import opened Text
  import opened SessionToken

  /** The role reported by `/whoami`. */
  datatype Role = NoRole | User | Admin

  /** The `rights` field of `/whoami`: the token's list, or the string "none". */
  datatype RightsEcho = Listed(rights: seq<string>) | NoneText

  /** A cookie the response sets. */
  datatype Cookie =
    | AuthState(state: string)                  // correlation state, session cookie
    | AccessToken(token: Jwt, maxAgeMs: int)    // session token

  datatype Response =
    | Redirect(location: string, cookies: seq<Cookie>)
    | Send(status: int, body: string, cookies: seq<Cookie>)
    | TokenJson(accessToken: Jwt)                          // 200 `{ accessToken }`
    | Identity(id: string, role: Role, rights: RightsEcho)  // 200 `{ id, role, rights }`
    | NoResponse                                           // the handler never answers
    | UncaughtError                                        // an exception escapes the handler

  /** Every cookie of the response that carries a session token lives exactly as
      long as the token, and every token handed out was minted now with `jwtKey`. */
  predicate IssuesFreshTokens(r: Response, jwtKey: string, nowMs: int) {
    var cs := if r.Redirect? || r.Send? then r.cookies else [];
    && (forall i :: 0 <= i < |cs| && cs[i].AccessToken? ==>
          cs[i].maxAgeMs == LifetimeMs && FreshlyIssued(cs[i].token, jwtKey, nowMs))
    && (r.TokenJson? ==> FreshlyIssued(r.accessToken, jwtKey, nowMs))
  }

  /** The token of an `Authorization` header: the first `"Bearer "` is removed. */
  function BearerToken(header: string): (token: string)
    ensures var k := Find(header, "Bearer "); 0 <= k ==> token == header[..k] + header[k + 7..]
    ensures StartsWith(header, "Bearer ") ==> token == header[7..]
    ensures Find(header, "Bearer ") == -1 ==> token == header
  {
    ReplaceFirst(header, "Bearer ", "")
  }
}

=== FILE: login_flows.dfy ===
/** The two login flows that end in a session cookie: the authorization-code
    callback `/token` (Graph membership) and the directory-bind login `/login/ad`. */
module LoginFlows {
  import opened Wrappers
  import opened ClaimsMapping
  import opened SessionToken
  import opened Http

  /** What the code exchange yields: the provider's access token and the user's id. */
  datatype TokenResponse = TokenResponse(accessToken: string, userId: string)

  /** The reply to the Graph `memberOf` query. */
  datatype GraphReply = GraphReply(transportError: bool, statusCode: int, groups: seq<GraphGroup>, bodyText: string)

  /** The username and password stored in the `credentials` cookie. */
  datatype Credentials = Credentials(username: string, password: string)

  /** The directory bind's callback arguments: an error and the authenticated flag. */
  datatype BindReply = BindReply(error: Option<string>, authenticated: bool)

  /** The directory membership lookup's callback arguments. */
  datatype LookupReply = LookupReply(error: Option<string>, groups: Option<seq<AdGroup>>)

  const BadChainMessage: string := "Bad Request: this does not appear to be part of the same authorization chain."
  const ClientPage: string := "/client.html"
  const UnknownFailureMessage: string := "Unknown authorization failure."

  /** The Graph query succeeds only without a transport error and with status 200;
      otherwise the reply body's text is the rejection. */
  function GroupMembershipForUser(reply: GraphReply): (r: Result<seq<GraphGroup>, string>)
    ensures r.Success? <==> !reply.transportError && reply.statusCode == 200
    ensures r.Success? ==> r.value == reply.groups
    ensures r.Failure? ==> r.error == reply.bodyText
  {
    if !reply.transportError && reply.statusCode == 200 then Success(reply.groups)
    else Failure(reply.bodyText)
  }

  /** Resolve the Graph membership for `accessToken` and mint the session token for `userId`. */
  function JwtFromToken(accessToken: string, userId: string, graph: string -> GraphReply,
                        jwtKey: string, nowMs: int): (r: Result<Jwt, string>)
    ensures r.Success? <==> GroupMembershipForUser(graph(accessToken)).Success?
    ensures r.Success? ==>
      var names := GraphNames(graph(accessToken).groups);
      && FreshlyIssued(r.value, jwtKey, nowMs)
      && r.value.claims.sub == userId
      && r.value.claims.scope == Some(Membership(names))
      && r.value.claims.rights == Some(Rights(Membership(names)))
  {
    match GroupMembershipForUser(graph(accessToken))
    case Failure(msg) => Failure(msg)
    case Success(groups) =>
      var t := Translate(GraphNames(groups));
      Success(Issue(userId, Some(t.scope), Some(t.rights), jwtKey, nowMs))
  }

  /** `GET /token`: the authorization-code callback. `authState` is the `authstate`
      cookie, `state` and `code` the query parameters; `exchange` and `graph` are
      the code exchange and the Graph query. */
  function TokenCallback(authState: Option<string>, state: Option<string>, code: Option<string>,
                         exchange: Option<string> -> Result<TokenResponse, string>,
                         graph: string -> GraphReply, jwtKey: string, nowMs: int): (r: Response)
    ensures r == Send(400, BadChainMessage, []) <==> authState != state
    ensures r.Redirect? <==>
      authState == state && exchange(code).Success?
      && GroupMembershipForUser(graph(exchange(code).value.accessToken)).Success?
    ensures r.Redirect? ==> r.location == ClientPage && |r.cookies| == 1 && r.cookies[0].AccessToken?
    ensures authState == state && exchange(code).Failure? ==>
      r == Send(401, "Unauthorized (access token): " + exchange(code).error, [])
    ensures authState == state && exchange(code).Success? ==>
      var reply := graph(exchange(code).value.accessToken);
      GroupMembershipForUser(reply).Failure? ==> r == Send(401, "Unauthorized (jwt): " + reply.bodyText, [])
    ensures IssuesFreshTokens(r, jwtKey, nowMs)
  {
    if authState != state then Send(400, BadChainMessage, [])
    else
      match exchange(code)
      case Failure(msg) => Send(401, "Unauthorized (access token): " + msg, [])
      case Success(tr) =>
        match JwtFromToken(tr.accessToken, tr.userId, graph, jwtKey, nowMs)
        case Failure(msg) => Send(401, "Unauthorized (jwt): " + msg, [])
        case Success(jwt) => Redirect(ClientPage, [AccessToken(jwt, LifetimeMs)])
  }

  /** On a state mismatch the answer does not depend on the exchanger or the Graph
      query at all: neither is consulted. */
  lemma MismatchNeverExchanges(authState: Option<string>, state: Option<string>, code: Option<string>,
                               exchange1: Option<string> -> Result<TokenResponse, string>,
                               exchange2: Option<string> -> Result<TokenResponse, string>,
                               graph1: string -> GraphReply, graph2: string -> GraphReply,
                               jwtKey: string, nowMs: int)
    requires authState != state
    ensures TokenCallback(authState, state, code, exchange1, graph1, jwtKey, nowMs)
         == TokenCallback(authState, state, code, exchange2, graph2, jwtKey, nowMs)
    ensures TokenCallback(authState, state, code, exchange1, graph1, jwtKey, nowMs).status == 400
  {
  }

  /** Strict equality: both parameters absent passes the gate; one absent fails it. */
  lemma StateGateOnAbsence(code: Option<string>, s: string,
                           exchange: Option<string> -> Result<TokenResponse, string>,
                           graph: string -> GraphReply, jwtKey: string, nowMs: int)
    ensures TokenCallback(None, None, code, exchange, graph, jwtKey, nowMs) != Send(400, BadChainMessage, [])
    ensures TokenCallback(Some(s), None, code, exchange, graph, jwtKey, nowMs) == Send(400, BadChainMessage, [])
    ensures TokenCallback(None, Some(s), code, exchange, graph, jwtKey, nowMs) == Send(400, BadChainMessage, [])
  {
  }

  /** A redirect's cookie carries the user's id and the translation of the Graph groups. */
  lemma CallbackCookieClaims(authState: Option<string>, state: Option<string>, code: Option<string>,
                             exchange: Option<string> -> Result<TokenResponse, string>,
                             graph: string -> GraphReply, jwtKey: string, nowMs: int)
    requires TokenCallback(authState, state, code, exchange, graph, jwtKey, nowMs).Redirect?
    ensures var r := TokenCallback(authState, state, code, exchange, graph, jwtKey, nowMs);
      var tr := exchange(code).value;
      var t := Translate(GraphNames(graph(tr.accessToken).groups));
      r.cookies == [AccessToken(Issue(tr.userId, Some(t.scope), Some(t.rights), jwtKey, nowMs), 14400000)]
  {
  }

  /** The end-to-end scenario: matching state, exchange yields token `T` for user `U`,
      Graph reports `testauth_admins`; the browser is sent to the client page with an
      admin session cookie. */
  lemma AdminLoginScenario(s: string, code: string, tk: string, u: string,
                           exchange: Option<string> -> Result<TokenResponse, string>,
                           graph: string -> GraphReply, jwtKey: string, nowMs: int)
    requires exchange(Some(code)) == Success(TokenResponse(tk, u))
    requires graph(tk) == GraphReply(false, 200, [GraphGroup("testauth_admins")], "")
    ensures TokenCallback(Some(s), Some(s), Some(code), exchange, graph, jwtKey, nowMs)
         == Redirect("/client.html",
                     [AccessToken(Jwt(Claims("http://testauth.plasne.com", u, Some(["admins"]),
                                             Some(["can admin", "can edit", "can view"]), nowMs + 14400000),
                                      jwtKey), 14400000)])
  {
    var names := GraphNames([GraphGroup("testauth_admins")]);
    assert names == ["testauth_admins"];
    MembershipSingle("testauth_admins");
    assert Membership(names) == ["admins"];
  }

  /** `GET /login/ad`. `credentials` is the parsed cookie (absent when missing or
      malformed); `bind` and `lookup` are the directory calls. The first response
      the source sends is the one modelled. */
  function LoginAd(credentials: Option<Credentials>, bind: (string, string) -> BindReply,
                   lookup: string -> LookupReply, jwtKey: string, nowMs: int): (r: Response)
    ensures credentials.None? <==> r == UncaughtError
    ensures r.Send? && r.status == 200 <==>
      && credentials.Some?
      && bind(credentials.value.username, credentials.value.password) == BindReply(None, true)
      && var l := lookup(credentials.value.username); l.error.None? && l.groups.Some?
    ensures r.Send? && r.status == 401 <==>
      && credentials.Some?
      && var b := bind(credentials.value.username, credentials.value.password);
         b.error.Some? || !b.authenticated
    ensures credentials.Some? && bind(credentials.value.username, credentials.value.password) == BindReply(None, true) ==>
      var l := lookup(credentials.value.username);
      && (l.error.Some? ==> r == Send(500, l.error.value, []))
      && (l.error.None? && l.groups.None? ==> r == NoResponse)
    ensures IssuesFreshTokens(r, jwtKey, nowMs)
  {
    match credentials
    case None => UncaughtError
    case Some(c) =>
      var b := bind(c.username, c.password);
      if b.error.Some? then Send(401, b.error.value, [])
      else if b.authenticated then
        var l := lookup(c.username);
        if l.error.Some? then Send(500, l.error.value, [])
        else if l.groups.Some? then
          var t := Translate(AdNames(l.groups.value));
          var jwt := Issue(c.username, Some(t.scope), Some(t.rights), jwtKey, nowMs);
          assert FreshlyIssued(jwt, jwtKey, nowMs);
          Send(200, "", [AccessToken(jwt, LifetimeMs)])
        else NoResponse
      else Send(401, UnknownFailureMessage, [])
  }

  /** A successful directory login's cookie names the user and carries the translation
      of the `cn` names. */
  lemma AdCookieClaims(c: Credentials, bind: (string, string) -> BindReply,
                       lookup: string -> LookupReply, jwtKey: string, nowMs: int)
    requires LoginAd(Some(c), bind, lookup, jwtKey, nowMs).Send?
    requires LoginAd(Some(c), bind, lookup, jwtKey, nowMs).status == 200
    ensures var t := Translate(AdNames(lookup(c.username).groups.value));
      LoginAd(Some(c), bind, lookup, jwtKey, nowMs).cookies
        == [AccessToken(Issue(c.username, Some(t.scope), Some(t.rights), jwtKey, nowMs), 14400000)]
  {
  }

  /** For the same group names and the same subject, the Graph callback and the
      directory login mint identical session tokens. */
  lemma PathsMintSameToken(authState: Option<string>, code: Option<string>,
                           exchange: Option<string> -> Result<TokenResponse, string>,
                           graph: string -> GraphReply, c: Credentials,
                           bind: (string, string) -> BindReply, lookup: string -> LookupReply,
                           jwtKey: string, nowMs: int)
    requires TokenCallback(authState, authState, code, exchange, graph, jwtKey, nowMs).Redirect?
    requires LoginAd(Some(c), bind, lookup, jwtKey, nowMs).Send?
    requires LoginAd(Some(c), bind, lookup, jwtKey, nowMs).status == 200
    requires exchange(code).value.userId == c.username
    requires GraphNames(graph(exchange(code).value.accessToken).groups) == AdNames(lookup(c.username).groups.value)
    ensures TokenCallback(authState, authState, code, exchange, graph, jwtKey, nowMs).cookies
         == LoginAd(Some(c), bind, lookup, jwtKey, nowMs).cookies
  {
  }
}

=== FILE: provider_token.dfy ===
/** Acceptance of a token issued by the identity provider (`verifyToken`) and its
    exchange for a minimal session token (`/login/token`). Signature checks are an
    oracle: `check(token, key)` is the result of verifying `token` with `key`. */
module ProviderToken {
  import opened Wrappers
  import opened SessionToken
  import opened Http

  /** The audience a provider token must be issued for (section 4.1.3 of RFC 7519). */
  const Audience: string := "http://testauth.plasne.com/"

  const AudiencePrefix: string := "Unauthorized (aud): "
  const AudienceMessage: string := AudiencePrefix + "The token was generated for the wrong audience."
  const NoKeyMessage: string := "Unauthorized (verify token): no signing key accepted the token"

  /** A published signing key: base64 modulus and exponent. */
  datatype Jwk = Jwk(n: string, e: string)

  /** The reply of the key-discovery request. */
  datatype KeysReply = KeysReply(error: Option<string>, statusCode: int, keys: seq<Jwk>)

  /** The claims of a signature-verified provider token that the gateway reads. */
  datatype ProviderClaims = ProviderClaims(aud: string, upn: string)

  /** One call of the deferred's `resolve` or `reject`. */
  datatype Settlement = Resolved(verified: ProviderClaims) | Rejected(reason: string)

  /** The state of the promise `verifyToken` returns. */
  datatype Deferred = Pending | Settled(outcome: Settlement)

  /** JavaScript string concatenation of a possibly-null error. */
  function ErrorText(e: Option<string>): string {
    match e
    case None => "null"
    case Some(m) => m
  }

  /** The keys were fetched: no transport error and status 200. */
  predicate KeysFetched(reply: KeysReply) {
    reply.error.None? && reply.statusCode == 200
  }

  function KeyFetchRejection(reply: KeysReply): Settlement {
    Rejected("Unauthorized (get keys): " + ErrorText(reply.error))
  }

  /** What one key's verification callback settles: a signature failure rejects;
      a valid signature resolves only for the gateway's audience. */
  function KeyOutcome(check: Result<ProviderClaims, string>): (s: Settlement)
    ensures s.Resolved? <==> check.Success? && check.value.aud == Audience
    ensures s.Resolved? ==> s.verified == check.value
    ensures check.Success? && check.value.aud != Audience ==> s == Rejected(AudienceMessage)
  {
    match check
    case Failure(err) => Rejected("Unauthorized (verify token): " + err)
    case Success(v) => if v.aud == Audience then Resolved(v) else Rejected(AudienceMessage)
  }

  /** The settlement each key's callback attempts, in key order. */
  function KeyOutcomes(token: string, keys: seq<Jwk>, check: (string, Jwk) -> Result<ProviderClaims, string>): (o: seq<Settlement>)
    ensures |o| == |keys|
    ensures forall i :: 0 <= i < |keys| ==> o[i] == KeyOutcome(check(token, keys[i]))
  {
    seq(|keys|, i requires 0 <= i < |keys| => KeyOutcome(check(token, keys[i])))
  }

  /** A q deferred settles once: the first settlement attempted is the one that counts. */
  function FirstSettlement(o: seq<Settlement>): (d: Deferred)
    ensures d.Pending? <==> |o| == 0
    ensures d.Settled? ==> d.outcome == o[0]
  {
    if |o| == 0 then Pending else Settled(o[0])
  }

  /** `verifyToken` as written: every key's callback tries to settle the same deferred. */
  function VerifyTokenAsWritten(token: string, reply: KeysReply,
                                check: (string, Jwk) -> Result<ProviderClaims, string>): (d: Deferred)
    ensures !KeysFetched(reply) ==> d == Settled(KeyFetchRejection(reply))
    ensures KeysFetched(reply) ==> (d.Pending? <==> |reply.keys| == 0)
    ensures KeysFetched(reply) && |reply.keys| > 0 ==> d == Settled(KeyOutcome(check(token, reply.keys[0])))
  {
    if !KeysFetched(reply) then Settled(KeyFetchRejection(reply))
    else FirstSettlement(KeyOutcomes(token, reply.keys, check))
  }

  /** The key loop run step by step: the deferred starts pending, and `resolve` or
      `reject` on an already settled deferred has no effect. */
  method RunKeyLoop(token: string, reply: KeysReply, check: (string, Jwk) -> Result<ProviderClaims, string>)
    returns (d: Deferred)
    ensures d == VerifyTokenAsWritten(token, reply, check)
  {
    if !KeysFetched(reply) {
      return Settled(KeyFetchRejection(reply));
    }
    var keys := reply.keys;
    d := Pending;
    var i := 0;
    while i < |keys|
      invariant 0 <= i <= |keys|
      invariant i == 0 ==> d == Pending
      invariant i > 0 ==> d == Settled(KeyOutcome(check(token, keys[0])))
    {
      var s := KeyOutcome(check(token, keys[i]));
      if d.Pending? {
        d := Settled(s);
      }
      i := i + 1;
    }
  }

  /** The intended policy: the first key that accepts the token decides; the token is
      rejected only once every key has rejected it. A valid signature for the wrong
      audience is reported as such; otherwise the last key's reason is reported. */
  function FirstAccepted(o: seq<Settlement>): (s: Settlement)
    ensures s.Resolved? <==> exists i :: 0 <= i < |o| && o[i].Resolved?
    ensures s.Resolved? ==> exists i :: 0 <= i < |o| && o[i] == s && forall j :: 0 <= j < i ==> o[j].Rejected?
    ensures s.Rejected? && (exists i :: 0 <= i < |o| && o[i] == Rejected(AudienceMessage)) ==>
      s == Rejected(AudienceMessage)
    ensures s.Rejected? && |o| > 0 && (forall i :: 0 <= i < |o| ==> o[i] != Rejected(AudienceMessage)) ==>
      s == o[|o| - 1]
    ensures |o| == 0 ==> s == Rejected(NoKeyMessage)
    decreases |o|
  {
    if |o| == 0 then Rejected(NoKeyMessage)
    else if o[0].Resolved? || |o| == 1 then o[0]
    else
      var rest := FirstAccepted(o[1..]);
      assert forall i :: 1 <= i < |o| ==> o[i] == o[1..][i - 1];
      if rest.Resolved? then rest
      else if o[0] == Rejected(AudienceMessage) then o[0]
      else rest
  }

  /** `verifyToken` with the intended key loop. */
  function VerifyToken(token: string, reply: KeysReply,
                       check: (string, Jwk) -> Result<ProviderClaims, string>): (d: Deferred)
    ensures d.Settled?
    ensures !KeysFetched(reply) ==> d.outcome == KeyFetchRejection(reply)
    ensures d.outcome.Resolved? <==>
      KeysFetched(reply) && exists i :: 0 <= i < |reply.keys| && KeyOutcome(check(token, reply.keys[i])).Resolved?
    ensures d.outcome.Resolved? ==> d.outcome.verified.aud == Audience
    ensures d.outcome.Rejected? && KeysFetched(reply) && (exists i :: 0 <= i < |reply.keys| && check(token, reply.keys[i]).Success?) ==>
      d.outcome == Rejected(AudienceMessage)
    ensures KeysFetched(reply) && |reply.keys| > 0 && (forall i :: 0 <= i < |reply.keys| ==> check(token, reply.keys[i]).Failure?) ==>
      d.outcome == Rejected("Unauthorized (verify token): " + check(token, reply.keys[|reply.keys| - 1]).error)
    ensures KeysFetched(reply) && |reply.keys| == 0 ==> d.outcome == Rejected(NoKeyMessage)
  {
    if !KeysFetched(reply) then Settled(KeyFetchRejection(reply))
    else
      var o := KeyOutcomes(token, reply.keys, check);
      var s := FirstAccepted(o);
      assert forall i :: 0 <= i < |o| ==> o[i] == KeyOutcome(check(token, reply.keys[i]));
      SignatureReasonIsNotAudience(token, reply.keys, check);
      assert s.Rejected? && (exists i :: 0 <= i < |reply.keys| && check(token, reply.keys[i]).Success?) ==>
        exists i :: 0 <= i < |o| && o[i] == Rejected(AudienceMessage);
      Settled(s)
  }

  /** A failed signature check is never reported with the audience message. */
  lemma SignatureReasonIsNotAudience(token: string, keys: seq<Jwk>, check: (string, Jwk) -> Result<ProviderClaims, string>)
    ensures forall i :: 0 <= i < |keys| && check(token, keys[i]).Failure? ==>
      KeyOutcome(check(token, keys[i])) != Rejected(AudienceMessage)
  {
    forall i | 0 <= i < |keys| && check(token, keys[i]).Failure?
      ensures KeyOutcome(check(token, keys[i])) != Rejected(AudienceMessage)
    {
      var reason := "Unauthorized (verify token): " + check(token, keys[i]).error;
      assert AudienceMessage[14] == AudiencePrefix[14] == 'a';
      assert reason[14] == 'v';
    }
  }

  /** A token signed by a key in the set with the right audience is accepted; so the
      intended verifier accepts a token signed by any one of several keys. */
  lemma AcceptsAnySigningKey(token: string, reply: KeysReply,
                             check: (string, Jwk) -> Result<ProviderClaims, string>, i: int)
    requires KeysFetched(reply) && 0 <= i < |reply.keys|
    requires check(token, reply.keys[i]).Success? && check(token, reply.keys[i]).value.aud == Audience
    ensures VerifyToken(token, reply, check).outcome.Resolved?
  {
  }

  /** A signature-valid token for another audience is rejected by both verifiers. */
  lemma WrongAudienceRejected(token: string, reply: KeysReply,
                              check: (string, Jwk) -> Result<ProviderClaims, string>)
    requires forall k :: check(token, k).Success? ==> check(token, k).value.aud != Audience
    ensures VerifyToken(token, reply, check).outcome.Rejected?
    ensures !VerifyTokenAsWritten(token, reply, check).Settled?
            || VerifyTokenAsWritten(token, reply, check).outcome.Rejected?
  {
  }

  /** The two verifiers agree whenever the first key settles the question in favour
      of the token, whenever there is exactly one key, and when the keys cannot be fetched. */
  lemma AsWrittenAgreesWithIntended(token: string, reply: KeysReply,
                                    check: (string, Jwk) -> Result<ProviderClaims, string>)
    requires !KeysFetched(reply) || |reply.keys| == 1
             || (|reply.keys| > 0 && KeyOutcome(check(token, reply.keys[0])).Resolved?)
    ensures VerifyTokenAsWritten(token, reply, check) == VerifyToken(token, reply, check)
  {
  }

  /** As written, a token signed by the second of two published keys is rejected:
      the first key's failed verification settles the deferred before the second
      key is tried. The intended verifier accepts it. */
  lemma AsWrittenRejectsSecondKeyToken(token: string)
    ensures var k1, k2 := Jwk("n1", "AQAB"), Jwk("n2", "AQAB");
      var check := (t: string, k: Jwk) =>
        if k == k2 then Success(ProviderClaims(Audience, "alice")) else Failure("invalid signature");
      var reply := KeysReply(None, 200, [k1, k2]);
      && VerifyTokenAsWritten(token, reply, check) == Settled(Rejected("Unauthorized (verify token): invalid signature"))
      && VerifyToken(token, reply, check) == Settled(Resolved(ProviderClaims(Audience, "alice")))
  {
  }

  /** A valid signature for another audience stays reported as an audience mismatch,
      even when a later key fails the signature check. */
  lemma IntendedReportsAudienceMismatch(token: string)
    ensures var k1, k2 := Jwk("n1", "AQAB"), Jwk("n2", "AQAB");
      var check := (t: string, k: Jwk) =>
        if k == k1 then Success(ProviderClaims("http://other.example/", "alice")) else Failure("invalid signature");
      VerifyToken(token, KeysReply(None, 200, [k1, k2]), check) == Settled(Rejected(AudienceMessage))
  {
  }

  /** As written, an empty key set leaves the deferred pending: the caller never answers. */
  lemma AsWrittenHangsOnEmptyKeySet(token: string, check: (string, Jwk) -> Result<ProviderClaims, string>)
    ensures VerifyTokenAsWritten(token, KeysReply(None, 200, []), check) == Pending
    ensures VerifyToken(token, KeysReply(None, 200, []), check) == Settled(Rejected(NoKeyMessage))
  {
  }

  /** `GET /login/token`: verify the provider token of the `Authorization` header with
      `verifyToken` and re-mint a session token holding only `iss`, `sub` and the expiration. */
  function LoginToken(authorization: Option<string>, verifyToken: string -> Deferred,
                      jwtKey: string, nowMs: int): (r: Response)
    ensures authorization.None? <==> r == UncaughtError
    ensures r.TokenJson? <==>
      authorization.Some? && verifyToken(BearerToken(authorization.value)).Settled?
      && verifyToken(BearerToken(authorization.value)).outcome.Resolved?
    ensures r.TokenJson? ==>
      var v := verifyToken(BearerToken(authorization.value)).outcome.verified;
      r.accessToken.claims == Claims(Issuer, v.upn, None, None, nowMs + 14400000)
    ensures r.NoResponse? <==> authorization.Some? && verifyToken(BearerToken(authorization.value)).Pending?
    ensures r.Send? ==> r.status == 401 && r.body == verifyToken(BearerToken(authorization.value)).outcome.reason
    ensures authorization.Some? && verifyToken(BearerToken(authorization.value)).Settled?
            && verifyToken(BearerToken(authorization.value)).outcome.Rejected? ==>
      r == Send(401, verifyToken(BearerToken(authorization.value)).outcome.reason, [])
    ensures IssuesFreshTokens(r, jwtKey, nowMs)
  {
    match authorization
    case None => UncaughtError
    case Some(header) =>
      match verifyToken(BearerToken(header))
      case Pending => NoResponse
      case Settled(Rejected(msg)) => Send(401, msg, [])
      case Settled(Resolved(verified)) => TokenJson(Issue(verified.upn, None, None, jwtKey, nowMs))
  }

  /** Failed key discovery makes `/login/token` answer 401 with the fetch error. */
  lemma KeyFetchFailureRejects(header: string, reply: KeysReply,
                               check: (string, Jwk) -> Result<ProviderClaims, string>, jwtKey: string, nowMs: int)
    requires !KeysFetched(reply)
    ensures LoginToken(Some(header), t => VerifyToken(t, reply, check), jwtKey, nowMs)
         == Send(401, "Unauthorized (get keys): " + ErrorText(reply.error), [])
    ensures LoginToken(Some(header), t => VerifyTokenAsWritten(t, reply, check), jwtKey, nowMs)
         == Send(401, "Unauthorized (get keys): " + ErrorText(reply.error), [])
  {
  }

  /** With the intended verifier, a provider token that some published key accepts is
      exchanged for a session token holding only the issuer, the `upn` and the expiration. */
  lemma AcceptedTokenIsReMinted(header: string, reply: KeysReply,
                                check: (string, Jwk) -> Result<ProviderClaims, string>,
                                jwtKey: string, nowMs: int, i: int)
    requires KeysFetched(reply) && 0 <= i < |reply.keys|
    requires var c := check(BearerToken(header), reply.keys[i]); c.Success? && c.value.aud == Audience
    ensures var r := LoginToken(Some(header), t => VerifyToken(t, reply, check), jwtKey, nowMs);
      && r.TokenJson?
      && r.accessToken.claims.iss == Issuer
      && r.accessToken.claims.scope.None? && r.accessToken.claims.rights.None?
      && r.accessToken.claims.expiresAtMs == nowMs + LifetimeMs
  {
  }
}

=== FILE: session_token.dfy ===
/** Session tokens minted by the gateway, as abstract claim records.
    The compact serialisation and the HMAC signature are not modelled: a token
    records its claims and the secret it was signed with. */
module SessionToken {
  import opened Wrappers

  /** The `iss` claim of every session token. */
  const Issuer: string := "http://testauth.plasne.com"

  /** Four hours in milliseconds: the token lifetime and the cookie `maxAge`. */
  const LifetimeMs: int := 4 * 60 * 60 * 1000

  /** The claims of a session token (section 4.1 of RFC 7519). `scope` and
      `rights` are absent on tokens re-minted from a provider token. */
  datatype Claims = Claims(
    iss: string,
    sub: string,
    scope: Option<seq<string>>,
    rights: Option<seq<string>>,
    expiresAtMs: int)

  /** A token signed with the symmetric secret `signingKey`. */
  datatype Jwt = Jwt(claims: Claims, signingKey: string)

  /** Builds the claim set, signs it and sets the absolute expiration
      `now + 4 h` (section 4.1.4 of RFC 7519); `nowMs` is the clock reading. */
  function Issue(sub: string, scope: Option<seq<string>>, rights: Option<seq<string>>,
                 jwtKey: string, nowMs: int): (t: Jwt)
    ensures FreshlyIssued(t, jwtKey, nowMs)
    ensures t.claims.sub == sub && t.claims.scope == scope && t.claims.rights == rights
  {
    Jwt(Claims(Issuer, sub, scope, rights, nowMs + LifetimeMs), jwtKey)
  }

  /** The token was minted by the gateway at `nowMs` with secret `jwtKey`. */
  predicate FreshlyIssued(t: Jwt, jwtKey: string, nowMs: int) {
    t.claims.iss == Issuer && t.claims.expiresAtMs == nowMs + LifetimeMs && t.signingKey == jwtKey
  }
}

=== FILE: settings.dfy ===
/** The configuration read once at start-up, passed explicitly to every handler. */
module Settings {

  datatype Config = Config(
    clientId: string,
    clientSecret: string,
    authority: string,
    redirectUri: string,
    resource: string,
    jwtKey: string)
}

=== FILE: text.dfy ===
/** The JavaScript string and array primitives the gateway's decision rules rely on. */
module Text {

  /** `s.startsWith(p)` */
  predicate StartsWith(s: string, p: string) {
    |p| <= |s| && s[..|p|] == p
  }

  /** `s.indexOf(p)`: the position of the first occurrence of `p` in `s`, or -1. */
  function Find(s: string, p: string): (k: int)
    ensures -1 <= k
    ensures 0 <= k ==> k + |p| <= |s| && s[k..k + |p|] == p
    ensures forall j :: 0 <= j <= |s| && (k == -1 || j < k) ==> !StartsWith(s[j..], p)
    decreases |s|
  {
    if StartsWith(s, p) then 0
    else if |s| == 0 then -1
    else
      var k := Find(s[1..], p);
      assert forall j :: 1 <= j <= |s| ==> s[j..] == s[1..][j - 1..];
      if k == -1 then -1 else k + 1
  }

  /** `s.replace(p, rep)` with a string pattern: only the first occurrence of `p`
      is replaced; without an occurrence the string is returned unchanged. */
  function ReplaceFirst(s: string, p: string, rep: string): (r: string)
    ensures var k := Find(s, p); 0 <= k ==> r == s[..k] + rep + s[k + |p|..]
    ensures StartsWith(s, p) ==> r == rep + s[|p|..]
    ensures Find(s, p) == -1 ==> r == s
    decreases |s|
  {
    if |s| < |p| then s
    else if s[..|p|] == p then rep + s[|p|..]
    else
      var r := ReplaceFirst(s[1..], p, rep);
      ReplaceFirstStep(s, p, rep, r);
      [s[0]] + r
  }

  /** Replaces every `from` character of `s` by `to` (a global regular-expression
      replace of a single character). */
  function ReplaceAll(s: string, from: char, to: char): (r: string)
    ensures |r| == |s|
    ensures forall i :: 0 <= i < |s| ==> r[i] == (if s[i] == from then to else s[i])
    decreases |s|
  {
    if |s| == 0 then []
    else [if s[0] == from then to else s[0]] + ReplaceAll(s[1..], from, to)
  }

  /** `a.indexOf(x)`: the first position holding `x`, or -1 when there is none. */
  function IndexOf(a: seq<string>, x: string): (r: int)
    ensures -1 <= r
    ensures r == -1 <==> x !in a
    ensures 0 <= r ==> r < |a| && a[r] == x && x !in a[..r]
    decreases |a|
  {
    if |a| == 0 then -1
    else if a[0] == x then 0
    else
      var k := IndexOf(a[1..], x);
      assert a == [a[0]] + a[1..];
      if k == -1 then -1
      else assert a[..k + 1] == [a[0]] + a[1..][..k]; k + 1
  }

  /** The step of `ReplaceFirst` past a character that does not start the pattern. */
  lemma {:induction false} ReplaceFirstStep(s: string, p: string, rep: string, r: string)
    requires |p| <= |s| && s[..|p|] != p
    requires var k := Find(s[1..], p); 0 <= k ==> r == s[1..][..k] + rep + s[1..][k + |p|..]
    ensures var k := Find(s, p); 0 <= k ==> [s[0]] + r == s[..k] + rep + s[k + |p|..]
  {
    var t := s[1..];
    var k := Find(t, p);
    FindStep(s, p);
    if 0 <= k {
      SliceStep(s, k, |p|);
    }
  }

  lemma FindStep(s: string, p: string)
    requires |p| <= |s| && s[..|p|] != p
    ensures Find(s, p) == (if Find(s[1..], p) == -1 then -1 else Find(s[1..], p) + 1)
  {
  }

  lemma SliceStep(s: string, k: nat, n: nat)
    requires 0 < |s| && k + n < |s|
    ensures s[..k + 1] == [s[0]] + s[1..][..k]
    ensures s[k + 1 + n..] == s[1..][k + n..]
  {
  }
}

=== FILE: whoami.dfy ===
/** `GET /whoami`: pick the presented session token, verify it, and project its
    claims onto an id, a role and the rights. Session-token verification is an
    oracle `verify(token)` returning the token's claims or an error. */
module Whoami {
  import opened Wrappers
  import opened Text
  import opened ClaimsMapping
  import opened SessionToken
  import opened Http
  import opened LoginFlows
  import opened ProviderToken

  const NoTokenMessage: string := "Not Authorized: no access token was passed"

  /** JavaScript truthiness of a string that may be undefined: "" is falsy too. */
  predicate Truthy(s: Option<string>) {
    s.Some? && s.value != ""
  }

  /** The token `/whoami` verifies: the `Authorization` header (minus its first
      `"Bearer "`) when present, else the `accessToken` cookie; empty means none. */
  function SelectToken(cookie: Option<string>, authorization: Option<string>): (t: Option<string>)
    ensures t.Some? ==> t.value != ""
    ensures Truthy(authorization) ==>
      (t.Some? <==> BearerToken(authorization.value) != "")
      && (t.Some? ==> t.value == BearerToken(authorization.value))
    ensures !Truthy(authorization) ==> (t.Some? <==> Truthy(cookie)) && (t.Some? ==> t == cookie)
  {
    var fromCookie := if Truthy(cookie) then cookie else None;
    var token := if Truthy(authorization) then Some(BearerToken(authorization.value)) else fromCookie;
    if Truthy(token) then token else None
  }

  /** The role for a token's `scope`: `users` gives user, `admins` overrides it. */
  function RoleOf(scope: Option<seq<string>>): (role: Role)
    ensures role == Admin <==> scope.Some? && "admins" in scope.value
    ensures role == User <==> scope.Some? && "admins" !in scope.value && "users" in scope.value
    ensures role == NoRole <==> scope.None? || ("admins" !in scope.value && "users" !in scope.value)
  {
    match scope
    case None => NoRole
    case Some(s) =>
      var afterUsers := if IndexOf(s, "users") > -1 then User else NoRole;
      if IndexOf(s, "admins") > -1 then Admin else afterUsers
  }

  /** The `rights` field: the token's list, however short, or "none" when it has none. */
  function EchoRights(rights: Option<seq<string>>): (e: RightsEcho)
    ensures e.NoneText? <==> rights.None?
    ensures rights.Some? ==> e == Listed(rights.value)
  {
    if rights.Some? then Listed(rights.value) else NoneText
  }

  function Whoami(cookie: Option<string>, authorization: Option<string>,
                  verify: string -> Result<Claims, string>): (r: Response)
    ensures r == Send(401, NoTokenMessage, []) <==> SelectToken(cookie, authorization).None?
    ensures r.NoResponse? <==>
      SelectToken(cookie, authorization).Some? && verify(SelectToken(cookie, authorization).value).Failure?
    ensures r.Identity? <==>
      SelectToken(cookie, authorization).Some? && verify(SelectToken(cookie, authorization).value).Success?
    ensures r.Identity? ==>
      var c := verify(SelectToken(cookie, authorization).value).value;
      r == Identity(c.sub, RoleOf(c.scope), EchoRights(c.rights))
  {
    match SelectToken(cookie, authorization)
    case None => Send(401, NoTokenMessage, [])
    case Some(token) =>
      match verify(token)
      case Failure(_) => NoResponse
      case Success(c) => Identity(c.sub, RoleOf(c.scope), EchoRights(c.rights))
  }

  /** A bearer header wins over any cookie. */
  lemma HeaderWinsOverCookie(cookie: Option<string>, t: string)
    requires t != ""
    ensures SelectToken(cookie, Some("Bearer " + t)) == Some(t)
  {
  }

  /** A header holding only `"Bearer "` strips to the empty, falsy token: the request
      is refused even when a valid cookie is present. */
  lemma BareBearerIsUnauthorized(cookie: Option<string>, verify: string -> Result<Claims, string>)
    ensures Whoami(cookie, Some("Bearer "), verify) == Send(401, NoTokenMessage, [])
  {
  }

  /** The role reported for a translated scope always agrees with the rights minted for it. */
  lemma RoleMatchesRights(names: seq<string>)
    ensures var scope := Membership(names);
      && (RoleOf(Some(scope)) == Admin <==> Rights(scope) == AdminRights)
      && (RoleOf(Some(scope)) == User <==> Rights(scope) == UserRights)
      && (RoleOf(Some(scope)) == NoRole <==> Rights(scope) == [])
  {
  }

  /** `/whoami` on the cookie of a successful `/token` callback reports the user,
      the role of the Graph groups and exactly the minted rights. */
  lemma WhoamiAfterCallback(authState: Option<string>, code: Option<string>,
                            exchange: Option<string> -> Result<TokenResponse, string>,
                            graph: string -> GraphReply, jwtKey: string, nowMs: int,
                            cookieText: string, verify: string -> Result<Claims, string>)
    requires TokenCallback(authState, authState, code, exchange, graph, jwtKey, nowMs).Redirect?
    requires cookieText != ""
    requires verify(cookieText)
          == Success(TokenCallback(authState, authState, code, exchange, graph, jwtKey, nowMs).cookies[0].token.claims)
    ensures var tr := exchange(code).value;
      var scope := Membership(GraphNames(graph(tr.accessToken).groups));
      Whoami(Some(cookieText), None, verify) == Identity(tr.userId, RoleOf(Some(scope)), Listed(Rights(scope)))
  {
  }

  /** A provider token accepted at `/login/token` is re-minted without scope or rights,
      so `/whoami` on the new token reports role none and rights "none". */
  lemma WhoamiAfterLoginToken(header: string, verifyToken: string -> Deferred, jwtKey: string, nowMs: int,
                              t: string, verify: string -> Result<Claims, string>)
    requires LoginToken(Some(header), verifyToken, jwtKey, nowMs).TokenJson?
    requires t != ""
    requires verify(t) == Success(LoginToken(Some(header), verifyToken, jwtKey, nowMs).accessToken.claims)
    ensures Whoami(None, Some("Bearer " + t), verify)
         == Identity(verifyToken(BearerToken(header)).outcome.verified.upn, NoRole, NoneText)
  {
  }
}

=== FILE: wrappers.dfy ===
/** Failure-carrying values used for the results of the gateway's external calls. */
module Wrappers {

  /** A value that may be absent, like a missing cookie or query parameter. */
  datatype Option<+T> = None | Some(value: T)

  /** The result of an external call: a success value or an error message. */
  datatype Result<+R, +E> = Success(value: R) | Failure(error: E)
}
